=== FILE: README.md ===
# gtasks in Dafny

A model of the core of `gtasks`, a small Go package of triggerable,
cancellable tasks. The model covers three parts:

- the `Task` state machine, meaning the trigger / execute / cancel loop of `Run`;
- its completion fan-out into single-slot subscriber channels;
- the `Runner`, a name-to-task registry.

The Go code waits in a `select` on two channels: the task's cancellation
channel and its trigger source. The model replaces that wait with an
explicit trace of the events the `select` takes, in order:

- `Trigger`: a value was received from the trigger source;
- `CancelSig`: the cancellation channel was found closed.

A separate function, `Channels.Select`, states which event one `select` can
take when given which channels are ready. When both are ready, the choice is
a parameter. The callback is abstract: each execution increments
`execCount`, then publishes a completion signal to every subscriber outlet.

Files:

- `channels.dfy` (module `Channels`): events and the `select` choice.
  Closing a channel, which panics when it is already closed. Non-blocking
  sends into single-slot outlets, and the fan-out.
- `task.dfy` (module `Tasks`): the task record, `NewTask`, `Once`, `After`,
  `Now`, `Subscribe`, `Cancel`, `Exec` and `Run` (with its wait loop
  `WaitLoop`). Also the lemmas about runs.
- `runner.dfy` (module `Runners`): the registry, meaning `New`, `Add`, `Get`,
  `Cancel`, `CancelAll` and the launch of every task.
- `scenarios.dfy` (module `Scenarios`): the package's own test scenarios, stated
  end to end. This includes two tasks chained through a completion outlet. It
  also holds one scenario of the model's own: a triggered task cancelled
  before its trigger arrives.

Design decisions:

- Closing a closed channel panics in Go, so `Task.Cancel` panics when the
  task is already cancelled. The model represents this as a `Panicked`
  result, not as a precondition. `Runners.Cancel` and `Runners.CancelAll`
  propagate it. The `close` at task.go:105 panics on a second call, and the
  model keeps that panic.
- A run that takes a `CancelSig` leaves the task `cancelled`, because the
  loop can only see a channel that has been closed. The converse is not
  enforced: the trace given to `Run` is not constrained by the `cancelled`
  flag (see "## Left out").
- `Run` does not look at the `ok` result of its receive from the trigger
  source (task.go:155). A trigger source that has been closed therefore reads
  as an endless run of `Trigger` events. In the trace model, that is a trace
  of `Trigger`s. The model admits such traces and does not treat them
  specially.

## Model

| member | source | states |
|---|---|---|
| Channels.Select | task.go:149-161 | the wait loop's `select` blocks exactly when neither channel is ready. It takes cancellation only if the channel is closed, and a trigger only if one is ready. When only one is ready, it takes that one |
| Channels.Close | task.go:104-106 | closing a channel leaves it closed, and closing a closed channel panics |
| Channels.Publish | task.go:169-174 | the fan-out keeps the number of outlets and leaves every outlet full. It delivers exactly as many signals as there were empty outlets; full outlets drop theirs |
| Channels.TrySend | task.go:170-173 | one non-blocking send into a single-slot outlet leaves it full and delivers exactly when it was empty; into a full outlet the signal is dropped |
| Channels.ReceiveReopensOutlet | task.go:155-173 | a consumer's receive from an outlet after a fan-out empties exactly that outlet, so the producer's next fan-out delivers exactly one signal, into it, and leaves every outlet full again |
| Channels.PublishIntoFullDrops | task.go:169-174 | publishing into outlets that are all full delivers nothing and changes nothing (drop, never block) |
| Channels.PublishIdempotent | task.go:169-174 | a second fan-out right after the first delivers nothing and leaves the outlets as they were |
| Channels.Receive | task.go:137-155 | receiving from a single-slot outlet gets a value exactly when the slot is full. It leaves that slot empty and the other slots unchanged |
| Tasks.NewTask | task.go:79-86 | a new task has no trigger and is not single-shot or cancelled. It has never run and has no outlets |
| Tasks.Once | task.go:129-132 | marks the task single-shot and changes nothing else |
| Tasks.After | task.go:111-114 | installs a trigger source and changes nothing else |
| Tasks.Now | task.go:118-126 | leaves the task record unchanged. It injects a signal exactly when a trigger source is installed, and is a no-op otherwise |
| Tasks.Subscribe | task.go:136-140 | appends exactly one empty outlet at the end, returns its index, and leaves the earlier outlets and all other fields unchanged |
| Tasks.Cancel | task.go:104-106 | panics exactly when the task is already cancelled. Otherwise the task becomes cancelled and nothing else changes |
| Tasks.Exec | task.go:164-175 | one execution adds exactly one to the count. Afterwards every outlet is full, the number of outlets is kept, and nothing else changes |
| Tasks.WaitLoop | task.go:149-161 | the loop consumes at most the trace and returns only on an ending event (a cancel, or a trigger when single-shot), which is the last one consumed. If it does not return, it consumed the whole trace. The count never shrinks and grows by at most the number of events consumed. It is cancelled exactly when it already was or it ended on a cancel |
| Tasks.LoopCountsTriggers | task.go:155-156 | the wait loop runs the callback exactly once per trigger it consumed |
| Tasks.LoopKeepsConfiguration | task.go:149-161 | the wait loop keeps `once`, the trigger and the number of outlets. The outlets are unchanged if nothing ran and all full otherwise |
| Tasks.Run | task.go:143-162 | without a trigger source, `Run` executes once and returns without consuming any event. With one, it returns only after an ending event. Configuration and the number of outlets are preserved |
| Tasks.RunWithoutTrigger | task.go:143-147 | a readable corollary of `Run`'s contract: without a trigger source, `Run` executes exactly once whatever `once` is and whatever events are pending |
| Tasks.RunOnce | task.go:155-159 | a single-shot task returns after the first event: one execution for a trigger and none for a cancel, however many triggers follow |
| Tasks.RunRepeats | task.go:149-161 | without `once`, each trigger before the first cancel causes exactly one execution. `Run` returns exactly when a cancel comes, and consumes up to and including it |
| Tasks.LoopRepeats | task.go:149-161 | the same property for the wait loop itself, proved by induction over the trace |
| Tasks.CancelBeforeTrigger | task.go:151-154 | a cancel before any trigger makes `Run` return after one event, with no execution and the task cancelled |
| Tasks.RunIgnoresLaterEvents | task.go:149-161 | once `Run` has returned on a trace, appending events to that trace changes nothing |
| Tasks.LoopIgnoresLaterEvents | task.go:149-161 | the same property for the wait loop |
| Tasks.LoopResumes | task.go:149-161 | a loop still waiting after trace `a` continues on `b` from the state it reached: running over `a + b` equals running over `a` and then over `b` |
| Tasks.NoReplay | task.go:136-140 | a readable corollary of `Subscribe`'s contract: an outlet subscribed after an execution starts empty, so completions published before a subscription are not delivered |
| Tasks.ExecFillsSubscribedOutlet | task.go:164-175 | an outlet subscribed before an execution is full after it |
| Runners.New | task.go:10-15 | a new registry is empty |
| Runners.Add | task.go:70-76 | stores a fresh task under the name, replacing any earlier one, and leaves every other entry unchanged. The key set gains exactly that name |
| Runners.Get | task.go:53-60 | returns the entry when the name is registered, and none otherwise |
| Runners.Cancel | task.go:33-40 | an absent name is a no-op. A present name is cancelled and removed, and only it; this panics exactly when that task was already cancelled |
| Runners.CancelAll | task.go:43-50 | succeeds exactly when no entry is already cancelled. It then leaves the registry empty and returns every entry, cancelled, under its name |
| Runners.RunAll | task.go:24-30 | every registered task runs over its own events. Names, configuration and the number of outlets are kept. A task without a trigger runs exactly once, and a task with one runs once per trigger its loop consumed |
| Runners.NewValid | task.go:10-15 | a new registry holds no cancelled task |
| Runners.AddKeepsValid | task.go:70-76 | adding keeps every registered task uncancelled |
| Runners.CancelKeepsValid | task.go:33-40 | on a registry of uncancelled tasks, `Cancel` never panics and keeps that property |
| Runners.GetAfterAdd | task.go:53-76 | after `Add`, the name is found as a fresh task and other names are unaffected |
| Runners.GetAfterCancel | task.go:33-60 | after a successful `Cancel`, the name is gone and other names are unaffected |
| Runners.AddOverwrites | task.go:70-76 | adding under a taken name replaces the entry without growing the registry |
| Scenarios.ImmediateTask | task_test.go:9-22 | a fresh task with no trigger runs exactly once |
| Scenarios.TriggeredOnce | task_test.go:24-41 | a single-shot, triggered task nudged by `Now` runs exactly once and returns |
| Scenarios.SubscribeChain | task_test.go:70-89 | running the producer fills the subscribed outlet, so the uncancelled consumer's `select` must take the trigger. The single-shot consumer then runs exactly once |
| Scenarios.ChainedTasksRunTwice | task_test.go:70-89 | the chained pair built from fresh tasks executes twice in all |
| Scenarios.CancelledBeforeTrigger | task.go:149-154 | a single-shot triggered task that `Cancel` has closed: with no trigger ready its `select` takes the cancel, whatever the tie-break, and `Run` then returns without running the callback |
| Scenarios.TwoRegisteredTasks | task_test.go:91-115 | a registry of two fresh tasks, launched, executes twice in all |

## Left out

- `Wrap` (task.go:181-212), the signal adapter: it depends on runtime reflection, a forwarding goroutine, and a panic on a non-readable argument. `After` only records that a trigger source exists.
- Tasks.After: a nil `chan interface{}` is not modelled. `Wrap` returns it unchanged (task.go:190-191), so `t.after` stays nil. `Run` then executes at once (task.go:144-146) and `Now` is a no-op. The model's `After` always installs a trigger.
- Tasks.After: a receive-only `<-chan interface{}` is not modelled. It panics at the type assertion `ch.(chan interface{})` (task.go:191), although the doc comment at task.go:178 accepts it.
- Channels.Publish: a closed outlet is not modelled. `Subscribe` hands out a two-way `chan interface{}` (task.go:136-139), so a subscriber can close it. A send on a closed channel panics in Go even inside a `select` with a `default` branch, so every later `exec` of the producer panics at task.go:170-173. In the model an outlet is only full or empty, and `Publish` and `Exec` never fail.
- Channels.Select: a value sent on the cancellation channel is not modelled. Callbacks receive that channel as a two-way `chan bool` (task.go:167), so they can send on it. The wait loop then takes an `opened == true` turn (task.go:151-153) that does nothing and loops again. The trace omits such turns, and `Select` treats cancellation as ready only when the channel is closed.
- Tasks.Run: the trace given to `Run` is not constrained by the task's `cancelled` flag. In Go a closed cancellation channel is always ready (task.go:151), so a cancelled task's loop never waits and takes the cancel unless a ready trigger wins the tie. In the model a cancelled task may still be given an empty trace, or a trace of triggers only, and then reads as still waiting. `Channels.Select` states the per-turn rule, and `Scenarios.CancelledBeforeTrigger` applies it, but `Run` and `WaitLoop` do not check it.
- Tasks.Exec: a consumer's receive does not empty the producer's outlet in the task records. In Go the outlet is one channel shared by the producer's listener list (task.go:138) and the consumer's trigger source, and the receive at task.go:155 empties it, so the producer's next `exec` delivers again. The model keeps each task's record separate, so after an `Exec` the producer's slot stays full. `Channels.ReceiveReopensOutlet` states the drain and re-delivery on the outlets alone.
- Tasks.Now: the asynchronous send into the trigger source happens in a goroutine. The model only records that a signal was injected, and the trace must contain the resulting `Trigger`.
- Runners.RunAll: Go launches each task's `Run` in its own goroutine and does not wait. The model shows the state after each task has consumed its own trace. Tasks of one registry chained to each other are not tied together; their traces carry that link.
- Runners.Add: the returned `*Task` and the stored entry are the same object in Go, and so is the `*Task` that `Get` returns (task.go:56-57). Configuration or cancellation through either handle is not reflected in the stored value of the model. So the panic of `r.Get(n).Cancel()` followed by `r.Cancel(n)` cannot be shown: the model's `Get` returns a copy.
- `Runner.All` (task.go:63-67), which returns the live map, and the `sync.RWMutex` locking: these are concerns of aliasing and locking.
- `running` and `runStart` (task.go:165-168): wall-clock observability that plays no part in control flow.
- The callback body and its cooperative use of the cancellation channel. An execution is an abstract increment of `execCount`.
- The random tie-break of `select` when both channels are ready: the trace (or `preferCancel` in `Select`) stands for it.

=== FILE: channels.dfy ===
/**
  The channel vocabulary of a task: the events its wait loop can take, the
  choice one `select` makes between its two channels, closing a channel, and
  the single-slot outlets a task publishes its completions into.
 */
module Channels {

  /** What the wait loop of a running task can receive: a value from its
      trigger source, or the "closed" result of its cancellation channel. */
  datatype Event = Trigger | CancelSig

  /** The one runtime failure of the core: closing a channel twice. */
  datatype Panic = CloseOfClosedChannel

  datatype Result<+T> = Ok(value: T) | Panicked(reason: Panic)

  datatype Option<+T> = None | Some(value: T)

  /** One `select` over the cancellation channel and the trigger source.
      A closed channel is always ready; when both are ready the language
      picks at random, and `preferCancel` is that pick. `None` means the
      select blocks. */
  function Select(cancelClosed: bool, triggerReady: bool, preferCancel: bool): (e: Option<Event>)
    ensures e.None? <==> !cancelClosed && !triggerReady
    ensures e == Some(CancelSig) ==> cancelClosed
    ensures e == Some(Trigger) ==> triggerReady
    ensures cancelClosed && !triggerReady ==> e == Some(CancelSig)
    ensures triggerReady && !cancelClosed ==> e == Some(Trigger)
  {
    if cancelClosed && (preferCancel || !triggerReady) then Some(CancelSig)
    else if triggerReady then Some(Trigger)
    else None
  }

  /** Closing a channel; `closed` is whether it is closed already, and the
      result is its new state. Closing a closed channel panics. */
  function Close(closed: bool): (r: Result<bool>)
    ensures r.Panicked? <==> closed
    ensures r.Ok? ==> r.value
  {
    if closed then Panicked(CloseOfClosedChannel) else Ok(true)
  }

  /** A single-slot buffered outlet is either full (`true`) or empty. */
  predicate AllFull(slots: seq<bool>)
  {
    forall i :: 0 <= i < |slots| ==> slots[i]
  }

  /** The number of empty outlets, that is, of sends that will not block. */
  function Empties(slots: seq<bool>): nat
  {
    multiset(slots)[false]
  }

  /** A non-blocking send into one single-slot outlet: into an empty slot
      the value goes in, into a full one it is dropped. */
  datatype Sent = Sent(full: bool, delivered: bool)

  function TrySend(full: bool): (r: Sent)
    ensures r.full
    ensures r.delivered <==> !full
  {
    if full then Sent(true, false) else Sent(true, true)
  }

  /** The outlets after a completion fan-out and how many of them received
      the signal. */
  datatype Delivery = Delivery(slots: seq<bool>, sent: nat)

  /** Completion fan-out: one non-blocking send into every outlet, in order. */
  function Publish(slots: seq<bool>): (r: Delivery)
    ensures |r.slots| == |slots|
    ensures AllFull(r.slots)
    ensures r.sent == Empties(slots)
    ensures r.sent <= |slots|
  {
    if slots == [] then Delivery([], 0)
    else
      var s := TrySend(slots[0]);
      var rest := Publish(slots[1..]);
      assert slots == [slots[0]] + slots[1..];
      assert multiset(slots) == multiset([slots[0]]) + multiset(slots[1..]);
      Delivery([s.full] + rest.slots, rest.sent + if s.delivered then 1 else 0)
  }

  /** The result of a receive from one outlet. */
  datatype Received = Received(slots: seq<bool>, got: bool)

  /** A receive from outlet `k` that does not wait: a full slot is emptied
      and yields its value; an empty one yields nothing (a blocking receive
      would wait here). */
  function Receive(slots: seq<bool>, k: nat): (r: Received)
    requires k < |slots|
    ensures r.got <==> slots[k]
    ensures |r.slots| == |slots| && !r.slots[k]
    ensures forall i :: 0 <= i < |slots| && i != k ==> r.slots[i] == slots[i]
  {
    if slots[k] then Received(slots[k := false], true) else Received(slots, false)
  }

  /** Publishing into outlets that are all full already delivers nothing and
      changes nothing: every signal is dropped, the publisher never waits. */
  lemma {:induction false} PublishIntoFullDrops(slots: seq<bool>)
    requires AllFull(slots)
    ensures Publish(slots) == Delivery(slots, 0)
  {
    if slots != [] {
      PublishIntoFullDrops(slots[1..]);
      assert slots == [slots[0]] + slots[1..];
    }
  }

  /** Outlets that are all full hold no empty slot. */
  lemma FullHasNoEmpties(slots: seq<bool>)
    requires AllFull(slots)
    ensures Empties(slots) == 0
  {
    assert false !in multiset(slots);
  }

  /** Outlets that are full except for outlet `k` hold one empty slot. */
  lemma OneEmpty(slots: seq<bool>, k: nat)
    requires k < |slots| && !slots[k]
    requires forall i :: 0 <= i < |slots| && i != k ==> slots[i]
    ensures Empties(slots) == 1
  {
    assert slots == slots[..k] + [false] + slots[k + 1..];
    FullHasNoEmpties(slots[..k]);
    FullHasNoEmpties(slots[k + 1..]);
    assert multiset(slots) == multiset(slots[..k]) + multiset([false]) + multiset(slots[k + 1..]);
  }

  /** Two fan-out results over the same number of outlets are equal. */
  lemma FullOutletsEqual(a: seq<bool>, b: seq<bool>)
    requires |a| == |b| && AllFull(a) && AllFull(b)
    ensures a == b
  {
    assert forall i :: 0 <= i < |a| ==> a[i] == b[i];
  }

  /** A receive from one outlet after a fan-out reopens exactly that outlet:
      the next fan-out delivers one signal, into it, and leaves every outlet
      full again. */
  lemma ReceiveReopensOutlet(slots: seq<bool>, k: nat)
    requires k < |slots|
    ensures var drained := Receive(Publish(slots).slots, k).slots;
      && Publish(drained).sent == 1
      && Publish(drained).slots == Publish(slots).slots
  {
    var full := Publish(slots).slots;
    var drained := Receive(full, k).slots;
    OneEmpty(drained, k);
    FullOutletsEqual(Publish(drained).slots, full);
  }

  /** Publishing twice in a row is the same as publishing once: the second
      fan-out finds every outlet full. */
  lemma PublishIdempotent(slots: seq<bool>)
    ensures Publish(Publish(slots).slots) == Delivery(Publish(slots).slots, 0)
  {
    PublishIntoFullDrops(Publish(slots).slots);
  }
}

=== FILE: runner.dfy ===
/**
  The runner: a registry of named tasks with overwrite-on-add, lookup, and
  cancel-and-remove of one task or of all of them.
 */
module Runners {
  import opened Channels
  import opened Tasks

  datatype Runner = Runner(tasks: map<string, Task>)

  /** What a removal leaves: the registry, and the task that was cancelled
      on the way out (none when the name was not registered). */
  datatype Removal = Removal(runner: Runner, cancelled: Option<Task>)

  /** What `CancelAll` leaves: the registry, and every task it cancelled,
      by the name it was registered under. */
  datatype Clearance = Clearance(runner: Runner, cancelled: map<string, Task>)

  /** An empty registry. */
  function New(): (r: Runner)
    ensures |r.tasks| == 0
  {
    Runner(map[])
  }

  /** A registry whose tasks can all still be cancelled. It holds no
      cancelled task as long as only `Add` and `Cancel` touch it. */
  predicate Valid(r: Runner)
  {
    forall name :: name in r.tasks ==> !r.tasks[name].cancelled
  }

  /** The result of `Add`: the registry and the new task. */
  datatype Added = Added(runner: Runner, task: Task)

  /** Creates a fresh task and stores it under `name`, replacing any task
      already registered there; every other entry stays as it was. */
  function Add(r: Runner, name: string): (a: Added)
    ensures a.task == NewTask()
    ensures name in a.runner.tasks && a.runner.tasks[name] == a.task
    ensures a.runner.tasks.Keys == r.tasks.Keys + {name}
    ensures forall n :: n in r.tasks && n != name ==> a.runner.tasks[n] == r.tasks[n]
  {
    var t := NewTask();
    Added(Runner(r.tasks[name := t]), t)
  }

  /** Looks a task up by name. */
  function Get(r: Runner, name: string): (o: Option<Task>)
    ensures o.Some? <==> name in r.tasks
    ensures o.Some? ==> o.value == r.tasks[name]
  {
    if name in r.tasks then Some(r.tasks[name]) else None
  }

  /** Cancels the task registered under `name` and removes it; a name that
      is not registered is a no-op. Cancelling an already cancelled task
      panics, as closing its channel twice does. */
  function Cancel(r: Runner, name: string): (res: Result<Removal>)
    ensures name !in r.tasks ==> res == Ok(Removal(r, None))
    ensures name in r.tasks ==> (res.Panicked? <==> r.tasks[name].cancelled)
    ensures res.Ok? && name in r.tasks ==>
      && res.value.runner.tasks == r.tasks - {name}
      && res.value.cancelled == Some(r.tasks[name].(cancelled := true))
  {
    if name !in r.tasks then Ok(Removal(r, None))
    else
      match Tasks.Cancel(r.tasks[name])
      case Panicked(p) => Panicked(p)
      case Ok(t) => Ok(Removal(Runner(r.tasks - {name}), Some(t)))
  }

  /** Cancels and removes every registered task, one name at a time. It
      panics if any of them is already cancelled; otherwise the registry is
      left empty and every task it held comes back cancelled. */
  method CancelAll(r: Runner) returns (res: Result<Clearance>)
    ensures res.Ok? <==> Valid(r)
    ensures res.Ok? ==> |res.value.runner.tasks| == 0
    ensures res.Ok? ==> res.value.cancelled.Keys == r.tasks.Keys
    ensures res.Ok? ==> forall n :: n in r.tasks ==>
      res.value.cancelled[n] == r.tasks[n].(cancelled := true)
  {
    var pending := r.tasks.Keys;
    var done: map<string, Task> := map[];
    while pending != {}
      invariant pending <= r.tasks.Keys
      invariant done.Keys == r.tasks.Keys - pending
      invariant forall n :: n in done ==> done[n] == r.tasks[n].(cancelled := true)
      invariant forall n :: n in done ==> !r.tasks[n].cancelled
      decreases pending
    {
      var name :| name in pending;
      var outcome := Tasks.Cancel(r.tasks[name]);
      if outcome.Panicked? {
        assert !Valid(r);
        return Panicked(outcome.reason);
      }
      done := done[name := outcome.value];
      pending := pending - {name};
    }
    assert done.Keys == r.tasks.Keys;
    return Ok(Clearance(Runner(map[]), done));
  }

  /** The events the task registered under `name` is given: none when the
      name has no trace. */
  function TraceOf(traces: map<string, seq<Event>>, name: string): seq<Event>
  {
    if name in traces then traces[name] else []
  }

  /** Launches every registered task; each consumes the events of its own
      trace. A task without a trigger runs once; a task with one runs once
      per trigger its loop consumed. */
  function RunAll(r: Runner, traces: map<string, seq<Event>>): (r': Runner)
    ensures r'.tasks.Keys == r.tasks.Keys
    ensures forall n :: n in r.tasks && !r.tasks[n].hasTrigger ==>
      r'.tasks[n].execCount == r.tasks[n].execCount + 1
    ensures forall n :: n in r.tasks && r.tasks[n].hasTrigger ==>
      var tr := TraceOf(traces, n);
      r'.tasks[n].execCount == r.tasks[n].execCount + Triggers(tr[..Run(r.tasks[n], tr).consumed])
    ensures forall n :: n in r.tasks ==>
      && r'.tasks[n].once == r.tasks[n].once
      && r'.tasks[n].hasTrigger == r.tasks[n].hasTrigger
      && |r'.tasks[n].slots| == |r.tasks[n].slots|
  {
    var r' := Runner(map n | n in r.tasks :: Run(r.tasks[n], TraceOf(traces, n)).task);
    assert forall n :: n in r.tasks && r.tasks[n].hasTrigger ==>
      var tr := TraceOf(traces, n);
      r'.tasks[n].execCount == r.tasks[n].execCount + Triggers(tr[..Run(r.tasks[n], tr).consumed])
    by {
      forall n | n in r.tasks && r.tasks[n].hasTrigger {
        LoopCountsTriggers(r.tasks[n], TraceOf(traces, n));
      }
    }
    r'
  }

  /** A new registry is valid, and adding and cancelling keep it valid. */
  lemma NewValid()
    ensures Valid(New())
  {
  }

  lemma AddKeepsValid(r: Runner, name: string)
    requires Valid(r)
    ensures Valid(Add(r, name).runner)
  {
  }

  lemma CancelKeepsValid(r: Runner, name: string)
    requires Valid(r)
    ensures Cancel(r, name).Ok?
    ensures Valid(Cancel(r, name).value.runner)
  {
  }

  /** A name that was just added is found, and another name's lookup is
      unaffected. */
  lemma GetAfterAdd(r: Runner, name: string, other: string)
    ensures Get(Add(r, name).runner, name) == Some(NewTask())
    ensures other != name ==> Get(Add(r, name).runner, other) == Get(r, other)
  {
  }

  /** Once cancelled, a name is gone, and another name's lookup is
      unaffected. */
  lemma GetAfterCancel(r: Runner, name: string, other: string)
    requires Cancel(r, name).Ok?
    ensures Get(Cancel(r, name).value.runner, name) == None
    ensures other != name ==> Get(Cancel(r, name).value.runner, other) == Get(r, other)
  {
  }

  /** Adding under a name that is taken replaces the old task without
      cancelling it: the registry size does not change. */
  lemma AddOverwrites(r: Runner, name: string)
    requires name in r.tasks
    ensures |Add(r, name).runner.tasks| == |r.tasks|
  {
    assert Add(r, name).runner.tasks.Keys == r.tasks.Keys;
  }
}

=== FILE: scenarios.dfy ===
/**
  End-to-end runs of the package's own usage scenarios: an immediate task,
  a triggered single-shot task, two tasks chained through a completion
  outlet, and a registry of two tasks; and one scenario of the model's own,
  a triggered task cancelled before its trigger arrives.

  TestTask and TestNow build their tasks as literals holding only a
  callback, so their cancellation channel is nil: cancelling such a task
  would always panic and its wait loop could never be cancelled. Neither of
  them cancels, so building those tasks with `NewTask` gives the same
  results.
 */
module Scenarios {
  import opened Channels
  import opened Tasks
  import opened Runners

  /** A task with no trigger source runs its callback exactly once. */
  lemma ImmediateTask(trace: seq<Event>)
    ensures Run(NewTask(), trace).returned
    ensures Run(NewTask(), trace).task.execCount == 1
  {
  }

  /** A single-shot task with a trigger source, nudged with `Now`: the
      injected signal is the first event the loop takes, so the callback runs
      once and `Run` returns, whatever the trigger source yields later. */
  lemma {:induction false} TriggeredOnce(later: seq<Event>)
    ensures var n := Now(After(Once(NewTask())));
      && n.injected
      && Run(n.task, [Trigger] + later).returned
      && Run(n.task, [Trigger] + later).task.execCount == 1
  {
    RunOnce(After(Once(NewTask())), Trigger, later);
  }

  /** Chaining: `t2` is triggered by an outlet of `t1` subscribed before
      `t1` runs, and is single-shot. Running `t1` (no trigger) fills that
      outlet; since `t2` is not cancelled, its `select` can only take the
      trigger, whichever way a tie would go; `t2` runs once and returns.
      Together: two executions. */
  lemma {:induction false} SubscribeChain(t1: Task, t2: Task, preferCancel: bool, later: seq<Event>)
    requires !t1.hasTrigger && !t2.cancelled
    ensures
      var sub := Subscribe(t1);
      var producer := Run(sub.task, []).task;
      var consumer := Once(After(t2));
      && sub.outlet < |producer.slots|
      && producer.slots[sub.outlet]
      && producer.execCount == t1.execCount + 1
      && Select(consumer.cancelled, producer.slots[sub.outlet], preferCancel) == Some(Trigger)
      && Run(consumer, [Trigger] + later).returned
      && Run(consumer, [Trigger] + later).task.execCount == t2.execCount + 1
  {
    var sub := Subscribe(t1);
    RunWithoutTrigger(sub.task, []);
    RunOnce(Once(After(t2)), Trigger, later);
  }

  /** The chained scenario from fresh tasks: the two callbacks run twice in all. */
  lemma {:induction false} ChainedTasksRunTwice()
    ensures
      var sub := Subscribe(NewTask());
      Run(sub.task, []).task.execCount + Run(Once(After(NewTask())), [Trigger]).task.execCount == 2
  {
    SubscribeChain(NewTask(), NewTask(), false, []);
    assert [Trigger] + [] == [Trigger];
  }

  /** A single-shot triggered task that is cancelled before it runs: its
      closed cancellation channel makes the `select` take the cancel when no
      trigger is ready, and `Run` then returns at once without running the
      callback. */
  lemma CancelledBeforeTrigger(preferCancel: bool, later: seq<Event>)
    ensures Tasks.Cancel(After(Once(NewTask()))).Ok?
    ensures var c := Tasks.Cancel(After(Once(NewTask()))).value;
      && c.cancelled
      && Select(c.cancelled, false, preferCancel) == Some(CancelSig)
      && Run(c, [CancelSig] + later).returned
      && Run(c, [CancelSig] + later).task.execCount == 0
  {
    CancelBeforeTrigger(Tasks.Cancel(After(Once(NewTask()))).value, later);
  }

  /** A registry holding two fresh tasks under different names: launching it
      runs each task once, two executions in all. */
  lemma TwoRegisteredTasks(traces: map<string, seq<Event>>)
    ensures var r := RunAll(Add(Add(New(), "t1").runner, "t2").runner, traces);
      && "t1" in r.tasks && "t2" in r.tasks
      && r.tasks["t1"].execCount + r.tasks["t2"].execCount == 2
  {
  }
}

=== FILE: task.dfy ===
/**
  A task: deferred work that runs when its trigger source yields a value,
  optionally only once, and stops waiting when its cancellation channel is
  closed. The callback itself is abstract: an execution only counts.
 */
module Tasks {
  import opened Channels

  /** The state of one task.
      - `once`: stop waiting after the first triggered execution;
      - `hasTrigger`: a trigger source was installed with `After`;
      - `cancelled`: the cancellation channel is closed;
      - `execCount`: how many times the callback has run;
      - `slots`: the completion outlets handed out by `Subscribe`, in order,
        each a single-slot buffer that is full (`true`) or empty. */
  datatype Task = Task(once: bool, hasTrigger: bool, cancelled: bool, execCount: nat, slots: seq<bool>)

  /** How a call of `Run` ends on a given trace: the task afterwards, how
      many events it consumed, and whether it returned (`false`: the trace
      ran out before the loop returned). */
  datatype RunResult = RunResult(task: Task, consumed: nat, returned: bool)

  /** A fresh task: no trigger, not once, not cancelled, never run, no outlets. */
  function NewTask(): (t: Task)
    ensures !t.once && !t.hasTrigger && !t.cancelled
    ensures t.execCount == 0 && t.slots == []
  {
    Task(false, false, false, 0, [])
  }

  /** Marks the task single-shot; nothing else changes. */
  function Once(t: Task): (r: Task)
    ensures r.once
    ensures r.(once := t.once) == t
  {
    t.(once := true)
  }

  /** Installs a trigger source. The adapter that turns any readable
      channel into the uniform signal channel is opaque here: all that
      remains of it is that the task now has a trigger. */
  function After(t: Task): (r: Task)
    ensures r.hasTrigger
    ensures r.(hasTrigger := t.hasTrigger) == t
  {
    t.(hasTrigger := true)
  }

  /** The result of `Now`: the task, unchanged, and whether a signal was
      handed to the trigger source for later delivery. */
  datatype Nudge = Nudge(task: Task, injected: bool)

  /** Asks for an immediate run. Without a trigger source this does nothing;
      with one, a signal is sent into it asynchronously, which the wait loop
      later receives as a `Trigger` event. The task record itself never changes. */
  function Now(t: Task): (r: Nudge)
    ensures r.task == t
    ensures r.injected <==> t.hasTrigger
  {
    Nudge(t, t.hasTrigger)
  }

  /** The result of `Subscribe`: the task and the index of the new outlet. */
  datatype Subscription = Subscription(task: Task, outlet: nat)

  /** Registers one new, empty completion outlet after the existing ones. */
  function Subscribe(t: Task): (r: Subscription)
    ensures r.outlet == |t.slots| < |r.task.slots| == |t.slots| + 1
    ensures r.task.slots[..|t.slots|] == t.slots
    ensures !r.task.slots[r.outlet]
    ensures r.task.(slots := t.slots) == t
  {
    Subscription(t.(slots := t.slots + [false]), |t.slots|)
  }

  /** Closes the cancellation channel. Closing it a second time panics. */
  function Cancel(t: Task): (r: Result<Task>)
    ensures r.Panicked? <==> t.cancelled
    ensures r.Ok? ==> r.value.cancelled && r.value.(cancelled := t.cancelled) == t
  {
    match Close(t.cancelled)
    case Panicked(p) => Panicked(p)
    case Ok(closed) => Ok(t.(cancelled := closed))
  }

  /** One execution: the callback runs once, then every outlet gets a
      non-blocking completion signal (an empty outlet is filled, a full one
      drops it). */
  function Exec(t: Task): (r: Task)
    ensures r.execCount == t.execCount + 1
    ensures |r.slots| == |t.slots| && AllFull(r.slots)
    ensures r.(execCount := t.execCount, slots := t.slots) == t
  {
    t.(execCount := t.execCount + 1, slots := Publish(t.slots).slots)
  }

  /** Whether the wait loop returns after taking event `e`: a closed
      cancellation channel always ends it, a trigger does when `once` is set. */
  predicate Ends(once: bool, e: Event)
  {
    e == CancelSig || (once && e == Trigger)
  }

  /** How many of the events are triggers. */
  function Triggers(trace: seq<Event>): nat
  {
    if trace == [] then 0
    else (if trace[0] == Trigger then 1 else 0) + Triggers(trace[1..])
  }

  /** The wait loop of a task with a trigger source, driven by the events
      its `select` takes, in order. */
  function WaitLoop(t: Task, trace: seq<Event>): (r: RunResult)
    ensures r.consumed <= |trace|
    ensures t.execCount <= r.task.execCount <= t.execCount + r.consumed
    ensures r.returned ==> 0 < r.consumed <= |trace| && Ends(t.once, trace[r.consumed - 1])
    ensures !r.returned ==> r.consumed == |trace|
    ensures r.task.cancelled <==>
      t.cancelled || (r.returned && 0 < r.consumed <= |trace| && trace[r.consumed - 1] == CancelSig)
    decreases |trace|
  {
    if trace == [] then RunResult(t, 0, false)
    else if trace[0] == CancelSig then RunResult(t.(cancelled := true), 1, true)
    else if t.once then RunResult(Exec(t), 1, true)
    else
      var r := WaitLoop(Exec(t), trace[1..]);
      r.(consumed := r.consumed + 1)
  }

  /** The wait loop keeps the task's configuration and its outlets: if
      nothing ran they are as before, otherwise every outlet is full. */
  lemma {:induction false} LoopKeepsConfiguration(t: Task, trace: seq<Event>)
    ensures var r := WaitLoop(t, trace);
      && r.task.once == t.once && r.task.hasTrigger == t.hasTrigger
      && |r.task.slots| == |t.slots|
      && (r.task.execCount == t.execCount ==> r.task.slots == t.slots)
      && (r.task.execCount > t.execCount ==> AllFull(r.task.slots))
    decreases |trace|
  {
    if trace != [] && trace[0] == Trigger && !t.once {
      LoopKeepsConfiguration(Exec(t), trace[1..]);
    }
  }

  /** The loop runs the callback once for every trigger it consumed. */
  lemma {:induction false} LoopCountsTriggers(t: Task, trace: seq<Event>)
    ensures var r := WaitLoop(t, trace);
      r.task.execCount == t.execCount + Triggers(trace[..r.consumed])
    decreases |trace|
  {
    if trace != [] {
      assert trace[..1][1..] == [];
      if trace[0] == Trigger && !t.once {
        LoopCountsTriggers(Exec(t), trace[1..]);
        TriggersStep(trace, WaitLoop(Exec(t), trace[1..]).consumed);
      }
    }
  }

  /** Counting the triggers of a prefix one event at a time. */
  lemma TriggersStep(trace: seq<Event>, n: nat)
    requires n < |trace|
    ensures Triggers(trace[..n + 1]) == Triggers(trace[1..][..n]) + if trace[0] == Trigger then 1 else 0
  {
    assert trace[..n + 1][1..] == trace[1..][..n];
  }

  /** `Run`: without a trigger source the callback runs once, synchronously,
      and `Run` returns without looking at any event; with one, the wait loop
      runs over the trace. */
  function Run(t: Task, trace: seq<Event>): (r: RunResult)
    ensures !t.hasTrigger ==> r.returned && r.consumed == 0 && r.task.execCount == t.execCount + 1
    ensures r.consumed <= |trace|
    ensures t.hasTrigger && r.returned ==> 0 < r.consumed && Ends(t.once, trace[r.consumed - 1])
    ensures r.task.once == t.once && r.task.hasTrigger == t.hasTrigger
    ensures |r.task.slots| == |t.slots|
    ensures r.task.execCount > t.execCount ==> AllFull(r.task.slots)
  {
    if !t.hasTrigger then RunResult(Exec(t), 0, true)
    else
      LoopKeepsConfiguration(t, trace);
      WaitLoop(t, trace)
  }

  /** The position of the first `CancelSig` in the trace, or its length if
      there is none. */
  function FirstCancel(trace: seq<Event>): (n: nat)
    ensures n <= |trace|
  {
    if trace == [] then 0
    else if trace[0] == CancelSig then 0
    else 1 + FirstCancel(trace[1..])
  }

  /** Without a trigger source, `Run` executes exactly once and returns,
      whatever `once` says and whatever events are pending. */
  lemma RunWithoutTrigger(t: Task, trace: seq<Event>)
    requires !t.hasTrigger
    ensures Run(t, trace) == RunResult(Exec(t), 0, true)
    ensures Run(t, trace).task.execCount == t.execCount + 1
  {
  }

  /** With `once` set, the loop ends at the first event it takes: a trigger
      causes exactly one execution and a cancel none, whatever follows. */
  lemma {:induction false} RunOnce(t: Task, e: Event, rest: seq<Event>)
    requires t.hasTrigger && t.once
    ensures Run(t, [e] + rest).returned
    ensures Run(t, [e] + rest).consumed == 1
    ensures Run(t, [e] + rest).task.execCount == t.execCount + (if e == Trigger then 1 else 0)
  {
    var trace := [e] + rest;
    assert trace[0] == e;
    assert trace[..1] == [e];
  }

  /** Without `once`, every trigger before the first cancel causes exactly
      one execution, the loop ends exactly at that cancel, and it keeps
      waiting if there is none. */
  lemma {:induction false} RunRepeats(t: Task, trace: seq<Event>)
    requires t.hasTrigger && !t.once
    ensures Run(t, trace).returned <==> FirstCancel(trace) < |trace|
    ensures Run(t, trace).consumed == if FirstCancel(trace) < |trace| then FirstCancel(trace) + 1 else |trace|
    ensures Run(t, trace).task.execCount == t.execCount + FirstCancel(trace)
  {
    LoopRepeats(t, trace);
  }

  lemma {:induction false} LoopRepeats(t: Task, trace: seq<Event>)
    requires !t.once
    ensures WaitLoop(t, trace).returned <==> FirstCancel(trace) < |trace|
    ensures WaitLoop(t, trace).consumed == if FirstCancel(trace) < |trace| then FirstCancel(trace) + 1 else |trace|
    ensures WaitLoop(t, trace).task.execCount == t.execCount + FirstCancel(trace)
    decreases |trace|
  {
    if trace != [] && trace[0] == Trigger {
      LoopRepeats(Exec(t), trace[1..]);
    }
  }

  /** A cancel that arrives before any trigger ends `Run` at once with no
      execution, and leaves the task cancelled. */
  lemma CancelBeforeTrigger(t: Task, rest: seq<Event>)
    requires t.hasTrigger
    ensures Run(t, [CancelSig] + rest) == RunResult(t.(cancelled := true), 1, true)
    ensures Run(t, [CancelSig] + rest).task.execCount == t.execCount
  {
    assert ([CancelSig] + rest)[0] == CancelSig;
  }

  /** Events after the one that ends the loop are never taken: appending to
      a trace on which `Run` returned changes nothing. */
  lemma {:induction false} RunIgnoresLaterEvents(t: Task, trace: seq<Event>, later: seq<Event>)
    requires Run(t, trace).returned
    ensures Run(t, trace + later) == Run(t, trace)
  {
    if t.hasTrigger {
      LoopIgnoresLaterEvents(t, trace, later);
    }
  }

  lemma {:induction false} LoopIgnoresLaterEvents(t: Task, trace: seq<Event>, later: seq<Event>)
    requires WaitLoop(t, trace).returned
    ensures WaitLoop(t, trace + later) == WaitLoop(t, trace)
    decreases |trace|
  {
    assert (trace + later)[0] == trace[0];
    if trace[0] == Trigger && !t.once {
      assert (trace + later)[1..] == trace[1..] + later;
      LoopIgnoresLaterEvents(Exec(t), trace[1..], later);
    }
  }

  /** A wait loop still waiting at the end of one trace continues, on the
      next events, from the state it reached: running over `a + b` is
      running over `a` and then over `b`. */
  lemma {:induction false} LoopResumes(t: Task, a: seq<Event>, b: seq<Event>)
    requires !WaitLoop(t, a).returned
    ensures WaitLoop(t, a + b) ==
      var r := WaitLoop(WaitLoop(t, a).task, b); r.(consumed := |a| + r.consumed)
    decreases |a|
  {
    if a == [] {
      assert a + b == b;
    } else {
      assert (a + b)[0] == a[0];
      assert (a + b)[1..] == a[1..] + b;
      LoopResumes(Exec(t), a[1..], b);
    }
  }

  /** Subscribing after an execution yields an empty outlet: a completion
      signal published before the subscription is never replayed. */
  lemma NoReplay(t: Task)
    ensures var s := Subscribe(Exec(t)); !s.task.slots[s.outlet]
  {
  }

  /** An outlet subscribed before an execution is full after it. */
  lemma ExecFillsSubscribedOutlet(t: Task)
    ensures var s := Subscribe(t); Exec(s.task).slots[s.outlet]
  {
  }
}
